=== FILE: README.md ===
# QCommandEdit editing core in Dafny

A model of the editing logic of QCommandEdit, a single-line command widget
with history recall, a "ghost" history suggestion and tab completion. The
model also covers the whitespace command tokenizer the widget ships with, and
the demo window's completion provider and execute handler. Qt is replaced by
an abstract line buffer that holds text, a cursor and an optional selection.
Every operation is a pure function over immutable records.

Files and modules:

- `results.dfy` (`Results`): `Option` and `Result`. `Result` replaces the
  tokenizer's `throw` and the demo window's refusals; `Option` is a search
  that may find nothing. The widget's silent early returns are modelled as
  returning the editor unchanged.
- `strings.dfy` (`Strings`): `StartsWith` and `Mid`, the two `QString`
  operations the code relies on. `Mid` saturates past the end, as Qt does.
- `tokenizer.dfy` (`Tokenizer`): `QCommandTokenizer` and
  `QSimpleCommandTokenizer`.
  - Tokens have inclusive `[start, end]` ranges, where `end` is the boundary
    that closed the token.
  - `TokenizeLoop` is the character loop, and `Tokenize` runs it from
    position 0.
  - Its contract says the tokens are exactly the maximal runs of
    non-separator characters, left to right, with a gap between neighbours.
- `common_prefix.dfy` (`CommonPrefix`): the file-local `longestCommonPrefix`.
  Its branch on `j == strs[i].length()` can never run. The model leaves that
  branch out and proves the result the code computes without it.
- `line_buffer.dfy` (`LineBuffer`): the part of `QLineEdit` the widget uses:
  `setText`, the cursor, `setSelection`, `selectedText`, and the widget's own
  `insertTextAtCursor` and `moveCursorToEnd`. As in `QLineEdit`, an empty
  selection is no selection.
- `command_edit.dfy` (`CommandEdit`): the `QCommandEdit` state machine.
  - The state is a buffer, a history record, a completion record, the ghost
    suffix and the two settings.
  - Each slot is a transition.
  - The signals `execute`, `askCompletion` and `escape` are returned as
    `Event`s.
- `command_edit_props.dfy` (`CommandEditProperties`): properties that relate
  several transitions or describe navigation for all inputs, plus the worked
  examples.
- `demo_window.dfy` (`DemoWindow`): `MainWindow::onAskCompletion` and
  `MainWindow::onExecute`, connected to the editor's events.

Behaviour kept exactly as the code has it:

- **`longestCommonPrefix`: a shorter later string never truncates the result.**
  The branch on `j == strs[i].length()` is unreachable, so `["foo", "fo"]`
  gives `"foo"` (`LcpIgnoresShorterString`).
- **`setCompletion`: the reset on an empty trimmed list cannot happen.** That
  branch runs only on the auto-accept path, and a non-empty common prefix
  needs a non-empty list. The function leaves the branch out, and
  `AutoAcceptKeepsEveryCandidate` shows it is dead.
- **`setCompletion`: a list trimmed to empty strings is not a reset.**
  `["x"]` leaves `[""]`, with `""` proposed: the list is not reset
  (`SingleCandidateExample`).
- **Escape on empty text emits `escape` and then still clears,** because
  there is no `else`.
- **Filtered history: running off the start does nothing.** Running off the
  end while browsing restores the filter text, stops browsing and keeps the
  filter. Down when not browsing does nothing.
- **`setHistory` clears the editor when browsing.** The clear empties the
  text, the ghost and the completion. It does not bring back the text typed
  before browsing.
- **Moving the cursor keeps the ghost suffix.** The cursor slot resets only
  the completion. The stored ghost stays; only painting checks that the
  cursor is at the end.

Selection changes and cursor moves reach the editor as explicit intents
(`SelectionChanged`, `CursorPositionChanged`), which the host delivers. This
is a modelling choice; "## Left out" explains what it costs.

## Model

| member | source | states |
|---|---|---|
| Tokenizer.Tokenize | qcommandtokenizer.cpp:64-88 | every token is a non-empty maximal run of non-separators whose text is `command[start..end)`, of kind 0; tokens are ordered with `end < next.start`; every non-separator character lies in a token |
| Tokenizer.TokenizeLoopWellFormed | qcommandtokenizer.cpp:70-87 | from any state meeting the loop invariant, the loop ends with a well-formed token list (induction over the remaining characters) |
| Tokenizer.ExtendKeepsInvariant | qcommandtokenizer.cpp:83-86 | appending a non-separator to the current token keeps the loop invariant |
| Tokenizer.FlushKeepsInvariant | qcommandtokenizer.cpp:73-82 | at a separator or the end, emitting the current token only when non-empty and restarting at `i+1` keeps the invariant, and at the end gives a well-formed list |
| Tokenizer.FlushKeepsRuns | qcommandtokenizer.cpp:75-80 | every emitted token is a maximal run |
| Tokenizer.FlushKeepsOrder | qcommandtokenizer.cpp:75-80 | emitting keeps the tokens ordered with gaps |
| Tokenizer.FlushKeepsCover | qcommandtokenizer.cpp:73-82 | after the boundary at `i`, every non-separator up to `i` lies in an emitted token |
| Tokenizer.BlankIffNoTokens | qcommandtokenizer.cpp:59-62 | a command yields no tokens exactly when all of its characters are space, tab, newline or carriage return |
| Tokenizer.Clear | qcommandtokenizer.cpp:53-57 | the command becomes empty and the token list empty |
| Tokenizer.SetCommand | qcommandtokenizer.cpp:24-29 | the tokens are those of the new command alone, whatever the tokenizer held before |
| Tokenizer.GetTokens | qcommandtokenizer.cpp:31-37 | returns the stored tokens in their order, which are well formed for the command |
| Tokenizer.FirstOverlap | qcommandtokenizer.cpp:44-48 | finds the first token from a position on whose inclusive range holds the index, or reports that none does |
| Tokenizer.GetTokenAtCharPos | qcommandtokenizer.cpp:39-51 | out of bounds exactly when the index is negative or past the command's length; "no token" exactly when in bounds and no token overlaps; otherwise the first overlapping token |
| Tokenizer.OverlapIsUnique | qcommandtokenizer.cpp:19-22 | on ordered tokens at most one inclusive range holds any index |
| Tokenizer.TokenAtItsEnd | qcommandtokenizer.cpp:19-22 | a cursor just after a token (at its `end`) resolves to that token |
| Tokenizer.ExampleTokens | main.cpp:28-33 | `"  foo bar  baz"` gives foo[2,5], bar[6,9], baz[11,14] |
| Tokenizer.ExampleTokenAtNine | main.cpp:34 | in that command the token at index 9 is "bar" |
| CommonPrefix.CutAtMismatch | qcommandedit.cpp:230-242 | the inner loop keeps a prefix of the result that agrees with the string, cut only at a real mismatch inside both strings |
| CommonPrefix.LcpLoop | qcommandedit.cpp:228-243 | the outer loop keeps a prefix of the first string that agrees with every string seen and cannot be extended |
| CommonPrefix.LongestCommonPrefix | qcommandedit.cpp:223-245 | "" for an empty list; otherwise a prefix of the first string agreeing with every string on their common length, blocked by a mismatch or by the first string's end |
| CommonPrefix.LcpPrefixOfLonger | qcommandedit.cpp:223-245 | the result is a prefix of every string at least as long as it |
| CommonPrefix.LcpIsLongest | qcommandedit.cpp:223-245 | a prefix of the first string agrees with all strings if and only if it is no longer than the result |
| CommonPrefix.LcpIgnoresShorterString | qcommandedit.cpp:230-236 | because the `j == length` branch is unreachable, `["foo", "fo"]` gives "foo" |
| CommonPrefix.LcpExample | qcommandedit.cpp:223-245 | `["oo", "op"]` gives "o" |
| LineBuffer.MoveCursorToEnd | qcommandedit.cpp:412-415 | same text, cursor at its end, no selection |
| LineBuffer.InsertTextAtCursor | qcommandedit.cpp:256-267 | insertion point `c` is the selection start or the cursor; text is the old text before `c`, then `txt`, then the old text after the selection; the cursor goes right after `txt`; the new text is selected iff asked and non-empty |
| LineBuffer.InsertSelectedThenErase | qcommandedit.cpp:256-267 | inserting selected text where nothing was selected and replacing it with "" gives back the text and cursor |
| CommandEdit.ResetHistory | qcommandedit.cpp:508-512 | not browsing, filter empty, entries kept |
| CommandEdit.ResetCompletion | qcommandedit.cpp:514-519 | no candidates, not requested, index -1 |
| CommandEdit.NewEditor | qcommandedit.cpp:25-31 | empty text, no ghost, history record empty, not browsing and with no filter, completion reset, ghost matching off, prefix auto-accept on |
| CommandEdit.ClipDelta | qcommandedit.cpp:159-160 | the step is clipped to -1, 0 or +1 with its sign kept |
| CommandEdit.LastMatch | qcommandedit.cpp:490-498 | the newest entry starting with the text, with no later entry matching, or none when no entry matches |
| CommandEdit.SearchMatchingHistoryAndShowGhost | qcommandedit.cpp:486-506 | only the ghost changes; it is "" when the feature is off, the text is empty or nothing matches; otherwise text + ghost is the newest matching entry |
| CommandEdit.GhostSettledAfterCompletionChange | qcommandedit.cpp:486-506 | the ghost search reads only the text, the entries and the setting, so a settled ghost stays settled when the completion record changes |
| CommandEdit.SetShowMatchingHistory | qcommandedit.cpp:46-51 | stores the flag; switching it on recomputes the ghost, switching it off leaves the ghost alone; text, history, completion and the auto-accept setting are kept |
| CommandEdit.SetAutoAcceptLcp | qcommandedit.cpp:53-56 | stores the flag; nothing else changes |
| CommandEdit.Clear | qcommandedit.cpp:130-137 | empty text and ghost, history not browsing with no filter, completion reset; entries and settings kept |
| CommandEdit.SetHistory | qcommandedit.cpp:143-149 | the new entries are installed with browsing stopped and no filter; the text, ghost and completion are cleared only when browsing, and otherwise left as they were; the settings are kept |
| CommandEdit.SetHistoryIndex | qcommandedit.cpp:198-221 | ignores indices outside 0 to the number of entries; an entry index shows that entry with the cursor at its end and no ghost; the past-end index shows the filter text, resets the history record and recomputes the ghost; completion and settings are kept |
| CommandEdit.ScanHistory | qcommandedit.cpp:174-184 | stops at the nearest entry in the step direction that starts with the filter, or just outside the list, skipping only non-matching entries |
| CommandEdit.NavigateHistory | qcommandedit.cpp:155-192 | a zero step does nothing; completion, entries and settings are never changed |
| CommandEdit.TrimCandidates | qcommandedit.cpp:282-284 | each candidate with its first `n` characters cut off, same order and count |
| CommandEdit.SetCurrentCompletion | qcommandedit.cpp:323-330 | the candidate replaces the selection (or goes in at the cursor) and is selected; the ghost is recomputed for the new text; history, completion records and settings unchanged |
| CommandEdit.NavigateCompletion | qcommandedit.cpp:336-352 | a zero step or a target outside the candidates does nothing (no wrap-around); otherwise the index moves, that candidate is proposed, selected, and the ghost is recomputed; settings kept |
| CommandEdit.SetCompletion | qcommandedit.cpp:273-302 | the list is stored, trimmed by the common prefix on the auto-accept path; without a pending request nothing but the list changes; settings kept |
| CommandEdit.CancelCompletion | qcommandedit.cpp:375-382 | with a selection: the selected text is erased, the cursor stays at its start, the completion is reset, the ghost is recomputed; without one: nothing |
| CommandEdit.AcceptCompletion | qcommandedit.cpp:357-370 | with a selection: the text is unchanged, the cursor moves to the end of the former selection, no selection, completion reset, ghost recomputed; without one: nothing |
| CommandEdit.OnReturnPressed | qcommandedit.cpp:417-425 | nothing on empty text; with a selection it accepts the completion; otherwise emits `execute(text)` and changes nothing |
| CommandEdit.OnEscapePressed | qcommandedit.cpp:427-435 | emits `escape` exactly on empty text, and then still cancels (with a selection) or clears (without) |
| CommandEdit.OnUpPressed | qcommandedit.cpp:437-440 | history navigation one step back; completion, entries and both settings unchanged |
| CommandEdit.OnDownPressed | qcommandedit.cpp:442-445 | history navigation one step forward; completion, entries and both settings unchanged |
| CommandEdit.OnTabPressed | qcommandedit.cpp:447-458 | with no candidates, emits `askCompletion(text, cursor)` only when no request is pending, and marks one pending; with candidates, proposes the next |
| CommandEdit.OnShiftTabPressed | qcommandedit.cpp:460-463 | proposes the previous candidate, selected, with the ghost recomputed, or does nothing before the first; history and both settings are kept |
| CommandEdit.OnSelectionOrCursorChanged | qcommandedit.cpp:465-475 | both slots reset the completion (no candidates, not requested, index -1) and change nothing else |
| CommandEdit.OnTextEdited | qcommandedit.cpp:477-484 | completion reset, filter set to the new text; the ghost is recomputed when the cursor is at the end and kept otherwise; both settings are kept |
| CommandEdit.Step | qcommandedit.cpp:33-41 | dispatches an intent to its slot, keeps the editor valid; only Return, Escape and Tab emit signals |
| CommandEditProperties.ProposeThenCancelRestores | qcommandedit.cpp:375-382 | proposing a candidate where nothing was selected and cancelling gives back the text and cursor |
| CommandEditProperties.ProposeThenAcceptInserts | qcommandedit.cpp:357-370 | proposing a non-empty candidate and accepting it leaves it inserted as plain text with the cursor after it |
| CommandEditProperties.AcceptIsIdempotent | qcommandedit.cpp:357-370 | accepting twice is accepting once |
| CommandEditProperties.NavigateUnfiltered | qcommandedit.cpp:163-170 | without a filter: a target outside 0 to the number of entries does nothing, an entry target shows that entry and keeps the empty filter, the past-end target shows "" and stops browsing; both clear the ghost |
| CommandEditProperties.UpWalksBackAndStops | qcommandedit.cpp:437-440 | Up from not browsing shows the newest entry; Up at the oldest entry does nothing |
| CommandEditProperties.NavigateFilteredBack | qcommandedit.cpp:173-191 | with a filter, Up shows the nearest earlier matching entry, keeps the filter and clears the ghost; with no earlier match it does nothing |
| CommandEditProperties.NavigateFilteredForward | qcommandedit.cpp:173-191 | with a filter, Down shows the nearest later match and clears the ghost; past the last match it restores the filter text, stops browsing, keeps the filter and recomputes the ghost; when not browsing it does nothing |
| CommandEditProperties.FilteredHistoryExample | qcommandedit.cpp:173-191 | over ["foo", "bar", "faz"] with filter "f": Up shows "faz", Up "foo", a third Up stays |
| CommandEditProperties.SetCompletionProposesNext | qcommandedit.cpp:300-301 | without auto-accept, a requested completion proposes the candidate after the current one, selected, and recomputes the ghost; when there is none only the candidate list changes |
| CommandEditProperties.SetCompletionAutoAcceptSteps | qcommandedit.cpp:277-301 | on the auto-accept path the prefix is inserted unselected and the trimmed list stored before the next candidate is proposed |
| CommandEditProperties.SetCompletionAcceptsPrefix | qcommandedit.cpp:277-301 | on the auto-accept path the common prefix is inserted unselected, then the next candidate without that prefix is proposed, selected |
| CommandEditProperties.AutoAcceptKeepsEveryCandidate | qcommandedit.cpp:292-296 | on the auto-accept path the list is non-empty and keeps its length, so the reset branch is dead |
| CommandEditProperties.CompletionExample | qcommandedit.cpp:273-302 | completing "f" with ["oo", "op"] inserts "o", leaves ["o", "p"] and proposes "o" selected |
| CommandEditProperties.SingleCandidateExample | qcommandedit.cpp:273-302 | ["x"] is inserted whole and leaves [""], with "" proposed: not a reset |
| CommandEditProperties.TabAsksOnce | qcommandedit.cpp:447-458 | Tab asks once; a second Tab while the answer is pending does nothing |
| CommandEditProperties.CyclingStopsAtLast | qcommandedit.cpp:347-348 | Tab at the last candidate does nothing |
| CommandEditProperties.ResetsAreIdempotent | qcommandedit.cpp:465-475 | forgetting the completion twice is forgetting it once, and afterwards Tab asks for completion again |
| CommandEditProperties.GhostExample | qcommandedit.cpp:486-506 | with history ["foo bar"], typing "foo" at the end shows the ghost " bar" |
| CommandEditProperties.GhostCompletesToEntry | qcommandedit.cpp:477-506 | after an edit at the end, a non-empty ghost completes the text to a history entry |
| CommandEditProperties.Run | qcommandedit.cpp:417-425 | any sequence of intents keeps the editor valid, and without a Return no `execute` is emitted |
| DemoWindow.WordSuffixes | mainwindow.cpp:81-84 | at most one suffix per word; each suffix completes the token to a word; every word starting with the token contributes its suffix |
| DemoWindow.WordSuffixesAppend | mainwindow.cpp:81-84 | word order is kept: the suffixes of a concatenation are the concatenation of the suffixes |
| DemoWindow.TokenUnderCursor | mainwindow.cpp:72-79 | on a freshly tokenized command, the lookup finds the token ending at the cursor when there is one, and the token the cursor is strictly inside otherwise |
| DemoWindow.CompletionsAt | mainwindow.cpp:70-95 | out of bounds is refused; completions are offered exactly when some token ends at the cursor, and then they are that token's word suffixes; a cursor inside a token is refused |
| DemoWindow.OnAskCompletion | mainwindow.cpp:70-95 | a refusal changes nothing; otherwise the editor receives the completions through `setCompletion` |
| DemoWindow.OnExecute | mainwindow.cpp:62-68 | the command is appended to the window's history, the editor is cleared and holds the new history, not browsing, no filter; the editor's two settings are kept |
| DemoWindow.Deliver | mainwindow.cpp:62-95 | handling a signal keeps the window and its editor consistent, and the words never change |
| DemoWindow.DeliverAll | mainwindow.cpp:62-95 | handling the signals of one intent in order keeps the window consistent |
| DemoWindow.ReturnExecutesCommand | mainwindow.cpp:62-68 | Return on typed text with no selection appends it to the history and leaves the editor empty and not browsing |
| DemoWindow.TabInsideTokenOffersNothing | mainwindow.cpp:76-79 | Tab with the cursor inside a token asks, is refused, and only the pending request remains |

## Left out

- Painting the ghost text, `repaint()` and the tooltips
  (`setToolTipAtCursor`): they only draw. The ghost is kept as a value.
- `keyPressEvent` and `eventFilter`: they map raw keys to signals. The model
  takes the Up, Down, Tab, Shift-Tab, Return and Escape intents directly.
- The Qt signal wiring and `blockSignals`.
  - `Step` dispatches intents.
  - Selection and cursor-change resets are intents the host delivers.
  - Text set by the widget itself does not fire them, inside or outside the
    blocked regions. The consequence is spelled out under
    `CommandEdit.SetHistoryIndex` below.
- `SetHistoryIndex`: the deferred `QTimer::singleShot` cursor move is applied
  at once. The cursor is at the end of the text when the call returns.
- The asynchronous completion round trip. `askCompletion` is an output
  `Event`. The answer is a later `SupplyCompletion` intent, or
  `DemoWindow.Deliver`. As in the code, there is no staleness check.
- `resetCompletion` (the public wrapper) is the same as `ResetCompletion`, so
  it has no separate member.
- `onSelectionChanged` and `onCursorPositionChanged` have the same body, so
  one transition, `OnSelectionOrCursorChanged`, serves both intents. The old
  and new cursor positions passed to `onCursorPositionChanged` are unused, so
  they are dropped.
- The `MainWindow` constructor and its widgets, the command log, the `qDebug`
  output, `onEscape` (which only logs) and the `main.cpp` application
  bootstrap. The demo word list is a parameter, `MainWindow.words`.
- `QChar` and Unicode: characters are Dafny `char`s, and strings have no
  normalisation or case folding.
- Widget focus, which only affects painting.
- `DemoWindow.WordSuffixes`: its contract speaks of membership. Word order is
  stated separately, by `WordSuffixesAppend`.
- `CommandEdit.SetCompletion`: its own contract states how the list is
  stored and trimmed, and what stays unchanged. The insertion of the common
  prefix and the proposal of the next candidate are stated by the lemmas
  `SetCompletionProposesNext`, `SetCompletionAutoAcceptSteps` and
  `SetCompletionAcceptsPrefix`.
- `CommandEdit.OnUpPressed`: its own contract states only what stays
  unchanged. The step back is stated by `NavigateUnfiltered`,
  `NavigateFilteredBack` and `UpWalksBackAndStops`.
- `CommandEdit.OnDownPressed`: its own contract states only what stays
  unchanged. The step forward is stated by `NavigateUnfiltered` and
  `NavigateFilteredForward`.
- `CommandEdit.SetHistoryIndex`: in the widget, `setText` outside the
  `blockSignals` regions can change the cursor or drop a selection.
  - The unblocked `setText` calls are in `setHistoryIndex`, `clear` and
    `acceptCompletion`.
  - QLineEdit then emits `selectionChanged` or `cursorPositionChanged`, and
    the widget's connected slots reset the completion.
  - The model does not fire these internal signals. The resets happen only
    when the host delivers a `SelectionChanged` or `CursorPositionChanged`
    intent.
  - So `SetHistoryIndex`, and `NavigateHistory` with it, keep the completion
    record.
  - For example, take text "foo" with "o" proposed (candidates ["o", "p"],
    index 0) and press Up onto a history entry. In the widget the next Tab
    asks for completion again. In the model, unless the host delivers the
    reset, the next Tab proposes "p".
  - `clear` and `acceptCompletion` reset the completion themselves, so they
    are not affected.
- `CommandEdit.NavigateHistory`: its own contract only covers the zero step
  and what never changes. The text, index, filter and ghost after each step
  are stated by the lemmas `NavigateUnfiltered`, `NavigateFilteredBack` and
  `NavigateFilteredForward`.

=== FILE: command_edit.dfy ===
/** The command editor's state machine: a line buffer, a history record, a
    completion record and a ghost suffix, with one pure transition per slot of
    the widget. Signals the widget emits become `Event`s in a `Reaction`. */
module CommandEdit {
  import opened Results
  import opened Strings
  import opened LineBuffer
  import opened CommonPrefix

  /** The history record: entries oldest first, the browsing position (-1 when
      not browsing) and the text typed before browsing began. */
  datatype HistoryState = HistoryState(entries: seq<string>, index: int, prefixFilter: string)
  {
    predicate Valid()
    {
      -1 <= index < |entries|
    }

    predicate Browsing()
    {
      index != -1
    }
  }

  /** The completion record: candidates, whether a request is pending or
      served, and the candidate currently proposed (-1 for none). */
  datatype CompletionState = CompletionState(candidates: seq<string>, requested: bool, index: int)

  datatype Editor = Editor(
    buf: Buffer,
    history: HistoryState,
    completion: CompletionState,
    ghostSuffix: string,
    showMatchingHistory: bool,
    autoAcceptLcp: bool)
  {
    predicate Valid()
    {
      buf.Valid() && history.Valid() && completion.index >= -1
    }
  }

  /** The signals the editor emits for its host. */
  datatype Event = Execute(cmd: string) | AskCompletion(cmd: string, cursorPos: int) | Escape

  /** The editor after an intent, and the signals emitted while handling it. */
  datatype Reaction = Reaction(editor: Editor, events: seq<Event>)

  /** HistoryState::reset: stop browsing and forget the filter; entries stay. */
  function ResetHistory(h: HistoryState): (r: HistoryState)
    ensures r.Valid() && !r.Browsing()
    ensures r.entries == h.entries && r.prefixFilter == ""
  {
    h.(index := -1, prefixFilter := "")
  }

  /** CompletionState::reset: no candidates, no request, nothing proposed. */
  function ResetCompletion(): (r: CompletionState)
    ensures r.candidates == [] && !r.requested && r.index == -1
  {
    CompletionState([], false, -1)
  }

  /** The state the constructor sets up: empty text and history, ghost
      suggestions off, auto-accept of the common prefix on. */
  function NewEditor(): (r: Editor)
    ensures r.Valid() && r.buf.text == "" && r.history == HistoryState([], -1, "") && r.ghostSuffix == ""
    ensures r.completion == ResetCompletion()
    ensures !r.showMatchingHistory && r.autoAcceptLcp
  {
    Editor(SetText(""), ResetHistory(HistoryState([], -1, "")), ResetCompletion(), "", false, true)
  }

  /** The clipping both navigations apply: any step becomes -1, 0 or +1 with the same sign. */
  function ClipDelta(delta: int): (d: int)
    ensures -1 <= d <= 1
    ensures (d < 0 <==> delta < 0) && (d > 0 <==> delta > 0)
  {
    if delta < -1 then -1 else if delta > 1 then 1 else delta
  }

  // ----- ghost suggestion -----

  /** The newest entry before `upto` that starts with `text`. */
  function LastMatch(entries: seq<string>, text: string, upto: nat): (r: Option<nat>)
    requires upto <= |entries|
    ensures r.Some? ==> r.value < upto && StartsWith(entries[r.value], text)
    ensures r.Some? ==> forall j :: r.value < j < upto ==> !StartsWith(entries[j], text)
    ensures r.None? ==> forall j :: 0 <= j < upto ==> !StartsWith(entries[j], text)
  {
    if upto == 0 then None
    else if StartsWith(entries[upto - 1], text) then Some(upto - 1)
    else LastMatch(entries, text, upto - 1)
  }

  /** searchMatchingHistoryAndShowGhost: the ghost is what the newest history
      entry starting with the text adds to it; "" when the feature is off, the
      text is empty or no entry matches. Only the ghost changes. */
  function SearchMatchingHistoryAndShowGhost(e: Editor): (r: Editor)
    ensures r == e.(ghostSuffix := r.ghostSuffix)
    ensures !e.showMatchingHistory || e.buf.text == "" ==> r.ghostSuffix == ""
    ensures e.showMatchingHistory && e.buf.text != "" ==>
              ((forall j :: 0 <= j < |e.history.entries| ==> !StartsWith(e.history.entries[j], e.buf.text))
                 ==> r.ghostSuffix == "")
    ensures e.showMatchingHistory && e.buf.text != "" ==>
              ((exists j :: 0 <= j < |e.history.entries| && StartsWith(e.history.entries[j], e.buf.text))
                 ==> exists i :: 0 <= i < |e.history.entries| && e.history.entries[i] == e.buf.text + r.ghostSuffix
                                 && (forall j :: i < j < |e.history.entries| ==> !StartsWith(e.history.entries[j], e.buf.text)))
  {
    var entries := e.history.entries;
    var text := e.buf.text;
    if text != "" && e.showMatchingHistory then
      match LastMatch(entries, text, |entries|)
      case Some(i) =>
        MidAfterPrefix(entries[i], text);
        e.(ghostSuffix := Mid(entries[i], |text|))
      case None => e.(ghostSuffix := "")
    else e.(ghostSuffix := "")
  }

  /** The ghost depends on the text, the entries and the setting only: once it
      is up to date, changing the completion record keeps it up to date. */
  lemma GhostSettledAfterCompletionChange(e: Editor, c: CompletionState)
    requires e == SearchMatchingHistoryAndShowGhost(e)
    ensures e.(completion := c) == SearchMatchingHistoryAndShowGhost(e.(completion := c))
  {
  }

  /** setShowMatchingHistory: store the flag, and look for a ghost when turned on. */
  function SetShowMatchingHistory(e: Editor, show: bool): (r: Editor)
    ensures r.showMatchingHistory == show
    ensures r.buf == e.buf && r.history == e.history && r.completion == e.completion
    ensures r.autoAcceptLcp == e.autoAcceptLcp
    ensures !show ==> r.ghostSuffix == e.ghostSuffix
    ensures show ==> r == SearchMatchingHistoryAndShowGhost(r)
  {
    var stored := e.(showMatchingHistory := show);
    if show then SearchMatchingHistoryAndShowGhost(stored) else stored
  }

  /** setAutoAcceptLongestCommonCompletionPrefix: store the flag. */
  function SetAutoAcceptLcp(e: Editor, accept: bool): (r: Editor)
    ensures r.autoAcceptLcp == accept
    ensures r.buf == e.buf && r.history == e.history && r.completion == e.completion
    ensures r.ghostSuffix == e.ghostSuffix && r.showMatchingHistory == e.showMatchingHistory
  {
    e.(autoAcceptLcp := accept)
  }

  // ----- clearing and history -----

  /** clear: empty text and ghost, stop browsing, forget the completion; the
      entries and the settings stay. */
  function Clear(e: Editor): (r: Editor)
    ensures r.Valid()
    ensures r.buf == SetText("") && r.ghostSuffix == ""
    ensures r.history == HistoryState(e.history.entries, -1, "")
    ensures r.completion == ResetCompletion()
    ensures r.showMatchingHistory == e.showMatchingHistory && r.autoAcceptLcp == e.autoAcceptLcp
  {
    e.(buf := SetText(""), ghostSuffix := "", history := ResetHistory(e.history), completion := ResetCompletion())
  }

  /** setHistory: clear first only when browsing, then install the entries
      with browsing stopped and the filter forgotten. */
  function SetHistory(e: Editor, entries: seq<string>): (r: Editor)
    requires e.Valid()
    ensures r.Valid()
    ensures r.history == HistoryState(entries, -1, "")
    ensures r.showMatchingHistory == e.showMatchingHistory && r.autoAcceptLcp == e.autoAcceptLcp
    ensures e.history.Browsing() ==> r.buf.text == "" && r.completion == ResetCompletion() && r.ghostSuffix == ""
    ensures !e.history.Browsing() ==> r.buf == e.buf && r.completion == e.completion && r.ghostSuffix == e.ghostSuffix
  {
    var base := if e.history.Browsing() then Clear(e) else e;
    base.(history := ResetHistory(base.history.(entries := entries)))
  }

  /** setHistoryIndex: indices outside `[0, |entries|]` are ignored; an entry
      index shows that entry; the index one past the end shows the filter text,
      stops browsing and looks for a ghost. The cursor ends at the end. */
  function SetHistoryIndex(e: Editor, index: int): (r: Editor)
    requires e.Valid()
    ensures r.Valid()
    ensures r.completion == e.completion && r.history.entries == e.history.entries
    ensures r.showMatchingHistory == e.showMatchingHistory && r.autoAcceptLcp == e.autoAcceptLcp
    ensures index < 0 || index > |e.history.entries| ==> r == e
    ensures 0 <= index < |e.history.entries| ==>
              && r.buf == SetText(e.history.entries[index])
              && r.history == e.history.(index := index)
              && r.ghostSuffix == ""
    ensures index == |e.history.entries| ==>
              && r.buf == SetText(e.history.prefixFilter)
              && r.history == HistoryState(e.history.entries, -1, "")
              && r == SearchMatchingHistoryAndShowGhost(r)
  {
    var h := e.history;
    if index < 0 || index > |h.entries| then e
    else if index >= |h.entries| then
      var restored := e.(ghostSuffix := "", buf := SetText(h.prefixFilter), history := ResetHistory(h));
      var shown := SearchMatchingHistoryAndShowGhost(restored);
      shown.(buf := MoveCursorToEnd(shown.buf))
    else
      var browsed := e.(ghostSuffix := "", history := h.(index := index), buf := SetText(h.entries[index]));
      browsed.(buf := MoveCursorToEnd(browsed.buf))
  }

  /** The search loop of filtered navigation: step from `i` by `d` until the
      position leaves the list or names an entry that starts with `filter`. */
  function ScanHistory(entries: seq<string>, filter: string, i: int, d: int): (r: int)
    requires d == 1 || d == -1
    requires 0 <= i <= |entries|
    decreases if d == 1 then |entries| - i else i + 1
    ensures d == 1 ==> i < r <= |entries| + 1 && (r > |entries| ==> r == i + 1)
    ensures d == -1 ==> -1 <= r < i
    ensures 0 <= r < |entries| ==> StartsWith(entries[r], filter)
    ensures forall k :: 0 <= k < |entries| && ((d == 1 && i < k < r) || (d == -1 && r < k < i))
                        ==> !StartsWith(entries[k], filter)
  {
    var j := i + d;
    if j < 0 || j >= |entries| then j
    else if StartsWith(entries[j], filter) then j
    else ScanHistory(entries, filter, j, d)
  }

  /** navigateHistory: a zero step does nothing; otherwise the step is clipped
      to one. Without a filter it moves the index by one (not browsing counts
      as one past the end). With a filter it looks for the nearest entry in
      that direction starting with the filter; running off the start does
      nothing, running off the end restores the filter text but keeps the
      filter. */
  function NavigateHistory(e: Editor, delta: int): (r: Editor)
    requires e.Valid()
    ensures r.Valid()
    ensures r.completion == e.completion && r.history.entries == e.history.entries
    ensures r.showMatchingHistory == e.showMatchingHistory && r.autoAcceptLcp == e.autoAcceptLcp
    ensures delta == 0 ==> r == e
  {
    if delta == 0 then e
    else
      var d := ClipDelta(delta);
      var h := e.history;
      var from := if h.index == -1 then |h.entries| else h.index;
      if h.prefixFilter == "" then SetHistoryIndex(e, from + d)
      else
        var stop := ScanHistory(h.entries, h.prefixFilter, from, d);
        if 0 <= stop < |h.entries| then SetHistoryIndex(e, stop)
        else if stop >= |h.entries| then
          var back := SetHistoryIndex(e, stop);
          back.(history := back.history.(prefixFilter := h.prefixFilter))
        else e
  }

  // ----- completion -----

  /** Every candidate with its first `n` characters cut off. */
  function TrimCandidates(list: seq<string>, n: nat): (r: seq<string>)
    ensures |r| == |list|
    ensures forall k :: 0 <= k < |list| ==> r[k] == Mid(list[k], n)
  {
    seq(|list|, k requires 0 <= k < |list| => Mid(list[k], n))
  }

  /** setCurrentCompletion: put `s` in place of the selection (or at the
      cursor), selected, and look for a ghost. */
  function SetCurrentCompletion(e: Editor, s: string): (r: Editor)
    requires e.Valid()
    ensures r.Valid()
    ensures r.buf == InsertTextAtCursor(e.buf, s, true)
    ensures r.history == e.history && r.completion == e.completion
    ensures r.showMatchingHistory == e.showMatchingHistory && r.autoAcceptLcp == e.autoAcceptLcp
    ensures r == SearchMatchingHistoryAndShowGhost(r)
  {
    SearchMatchingHistoryAndShowGhost(e.(buf := InsertTextAtCursor(e.buf, s, true)))
  }

  /** navigateCompletion: a zero step does nothing; otherwise the step is
      clipped to one, and a target outside the candidates does nothing (no
      wrap-around); a target inside proposes that candidate, selected. */
  function NavigateCompletion(e: Editor, delta: int): (r: Editor)
    requires e.Valid()
    ensures r.Valid()
    ensures r.history == e.history
    ensures r.completion.candidates == e.completion.candidates
    ensures r.completion.requested == e.completion.requested
    ensures r.showMatchingHistory == e.showMatchingHistory && r.autoAcceptLcp == e.autoAcceptLcp
    ensures var n := e.completion.index + ClipDelta(delta);
      && (delta == 0 || n < 0 || n >= |e.completion.candidates| ==> r == e)
      && (delta != 0 && 0 <= n < |e.completion.candidates| ==>
            && r.completion.index == n
            && r.buf == InsertTextAtCursor(e.buf, e.completion.candidates[n], true)
            && r == SearchMatchingHistoryAndShowGhost(r))
  {
    if delta == 0 then e
    else
      var n := e.completion.index + ClipDelta(delta);
      if n < 0 || n >= |e.completion.candidates| then e
      else SetCurrentCompletion(e.(completion := e.completion.(index := n)), e.completion.candidates[n])
  }

  /** Whether setCompletion takes the auto-accept path for `list`. */
  predicate AutoAccepts(e: Editor, list: seq<string>)
  {
    e.autoAcceptLcp && e.completion.requested && LongestCommonPrefix(list) != ""
  }

  /** setCompletion: store the candidates; on the auto-accept path insert their
      common prefix (unselected) and keep only what follows it in each; then,
      if completion was requested, propose the next candidate.

      The code resets the completion when the trimmed list is empty; that
      cannot happen, since a non-empty common prefix needs a non-empty list,
      so the branch is left out here (see `AutoAcceptKeepsEveryCandidate`). */
  function SetCompletion(e: Editor, list: seq<string>): (r: Editor)
    requires e.Valid()
    ensures r.Valid()
    ensures r.history == e.history
    ensures r.completion.requested == e.completion.requested
    ensures r.showMatchingHistory == e.showMatchingHistory && r.autoAcceptLcp == e.autoAcceptLcp
    ensures AutoAccepts(e, list) ==>
              r.completion.candidates == TrimCandidates(list, |LongestCommonPrefix(list)|)
    ensures !AutoAccepts(e, list) ==> r.completion.candidates == list
    ensures !e.completion.requested ==> r == e.(completion := e.completion.(candidates := list))
  {
    var stored := e.(completion := e.completion.(candidates := list));
    var proposing := if AutoAccepts(e, list) then
        var lcp := LongestCommonPrefix(list);
        stored.(buf := InsertTextAtCursor(stored.buf, lcp, false),
                completion := stored.completion.(candidates := TrimCandidates(list, |lcp|)))
      else stored;
    if proposing.completion.requested then NavigateCompletion(proposing, 1) else proposing
  }

  /** cancelCompletion: with a selection, erase it and forget the completion;
      without one, nothing. */
  function CancelCompletion(e: Editor): (r: Editor)
    requires e.Valid()
    ensures r.Valid()
    ensures r.history == e.history
    ensures !e.buf.HasSelectedText() ==> r == e
    ensures e.buf.HasSelectedText() ==>
              var sp := e.buf.selection.value;
              && r.buf == Buffer(e.buf.text[..sp.start] + e.buf.text[sp.start + sp.len..], sp.start, None)
              && r.completion == ResetCompletion()
              && r == SearchMatchingHistoryAndShowGhost(r)
    ensures r.showMatchingHistory == e.showMatchingHistory && r.autoAcceptLcp == e.autoAcceptLcp
  {
    if e.buf.HasSelectedText() then
      var erased := SetCurrentCompletion(e, "");
      assert erased.buf.text == e.buf.text[..e.buf.selection.value.start]
                                + e.buf.text[e.buf.selection.value.start + e.buf.selection.value.len..];
      GhostSettledAfterCompletionChange(erased, ResetCompletion());
      erased.(completion := ResetCompletion())
    else e
  }

  /** acceptCompletion: with a selection, keep the selected text as plain text:
      the text is unchanged, the cursor goes to the end of what was selected,
      the completion is forgotten. Without one, nothing. */
  function AcceptCompletion(e: Editor): (r: Editor)
    requires e.Valid()
    ensures r.Valid()
    ensures r.history == e.history
    ensures !e.buf.HasSelectedText() ==> r == e
    ensures e.buf.HasSelectedText() ==>
              && r.buf == Buffer(e.buf.text, e.buf.selection.value.start + e.buf.selection.value.len, None)
              && r.completion == ResetCompletion()
              && r == SearchMatchingHistoryAndShowGhost(r)
    ensures r.showMatchingHistory == e.showMatchingHistory && r.autoAcceptLcp == e.autoAcceptLcp
  {
    if e.buf.HasSelectedText() then
      var current := e.buf.SelectedText();
      var cancelled := CancelCompletion(e);
      var c := cancelled.buf.cursor;
      var t := cancelled.buf.text;
      var sp := e.buf.selection.value;
      assert t[..c] + current + t[c..] == e.buf.text by {
        assert t[..c] == e.buf.text[..sp.start];
        assert t[c..] == e.buf.text[sp.start + sp.len..];
      }
      var accepted := cancelled.(buf := Buffer(t[..c] + current + t[c..], c + |current|, None),
                                 completion := ResetCompletion());
      SearchMatchingHistoryAndShowGhost(accepted)
    else e
  }

  // ----- intent handlers -----

  /** onReturnPressed: nothing on empty text; accept a proposed completion; otherwise emit `execute`. */
  function OnReturnPressed(e: Editor): (r: Reaction)
    requires e.Valid()
    ensures r.editor.Valid()
    ensures r.editor.buf.text == e.buf.text
    ensures r.events == (if e.buf.text != "" && !e.buf.HasSelectedText() then [Execute(e.buf.text)] else [])
    ensures e.buf.text == "" || !e.buf.HasSelectedText() ==> r.editor == e
    ensures e.buf.text != "" && e.buf.HasSelectedText() ==> r.editor == AcceptCompletion(e)
  {
    if e.buf.text == "" then Reaction(e, [])
    else if e.buf.HasSelectedText() then Reaction(AcceptCompletion(e), [])
    else Reaction(e, [Execute(e.buf.text)])
  }

  /** onEscapePressed: emit `escape` on empty text, then (no `else`) cancel a
      proposed completion, or clear everything. */
  function OnEscapePressed(e: Editor): (r: Reaction)
    requires e.Valid()
    ensures r.editor.Valid()
    ensures r.events == (if e.buf.text == "" then [Escape] else [])
    ensures e.buf.HasSelectedText() ==> r.editor == CancelCompletion(e)
    ensures !e.buf.HasSelectedText() ==> r.editor == Clear(e)
  {
    var events := if e.buf.text == "" then [Escape] else [];
    if e.buf.HasSelectedText() then Reaction(CancelCompletion(e), events)
    else Reaction(Clear(e), events)
  }

  /** onUpPressed: one step back in history. */
  function OnUpPressed(e: Editor): (r: Editor)
    requires e.Valid()
    ensures r.Valid()
    ensures r.completion == e.completion && r.history.entries == e.history.entries
    ensures r.showMatchingHistory == e.showMatchingHistory && r.autoAcceptLcp == e.autoAcceptLcp
  {
    NavigateHistory(e, -1)
  }

  /** onDownPressed: one step forward in history. */
  function OnDownPressed(e: Editor): (r: Editor)
    requires e.Valid()
    ensures r.Valid()
    ensures r.completion == e.completion && r.history.entries == e.history.entries
    ensures r.showMatchingHistory == e.showMatchingHistory && r.autoAcceptLcp == e.autoAcceptLcp
  {
    NavigateHistory(e, 1)
  }

  /** onTabPressed: with no candidates, ask for completion once (and mark it
      requested); while a request is pending, do nothing; with candidates,
      propose the next one. */
  function OnTabPressed(e: Editor): (r: Reaction)
    requires e.Valid()
    ensures r.editor.Valid()
    ensures r.events == (if e.completion.candidates == [] && !e.completion.requested
                         then [AskCompletion(e.buf.text, e.buf.cursor)] else [])
    ensures e.completion.candidates == [] ==>
              r.editor == e.(completion := e.completion.(requested := true))
    ensures e.completion.candidates != [] ==> r.editor == NavigateCompletion(e, 1)
  {
    if e.completion.candidates == [] then
      if e.completion.requested then Reaction(e, [])
      else Reaction(e.(completion := e.completion.(requested := true)), [AskCompletion(e.buf.text, e.buf.cursor)])
    else Reaction(NavigateCompletion(e, 1), [])
  }

  /** onShiftTabPressed: propose the previous candidate. */
  function OnShiftTabPressed(e: Editor): (r: Editor)
    requires e.Valid()
    ensures r.Valid()
    ensures r.history == e.history
    ensures r.showMatchingHistory == e.showMatchingHistory && r.autoAcceptLcp == e.autoAcceptLcp
    ensures var n := e.completion.index - 1;
      && (n < 0 || n >= |e.completion.candidates| ==> r == e)
      && (0 <= n < |e.completion.candidates| ==>
            && r.completion == e.completion.(index := n)
            && r.buf == InsertTextAtCursor(e.buf, e.completion.candidates[n], true)
            && r == SearchMatchingHistoryAndShowGhost(r))
  {
    NavigateCompletion(e, -1)
  }

  /** onSelectionChanged and onCursorPositionChanged, which do the same: a
      selection change or cursor move by the user forgets the completion and
      changes nothing else. */
  function OnSelectionOrCursorChanged(e: Editor): (r: Editor)
    requires e.Valid()
    ensures r.Valid()
    ensures r.buf == e.buf && r.history == e.history && r.ghostSuffix == e.ghostSuffix
    ensures r.showMatchingHistory == e.showMatchingHistory && r.autoAcceptLcp == e.autoAcceptLcp
    ensures r.completion.candidates == [] && !r.completion.requested && r.completion.index == -1
  {
    e.(completion := ResetCompletion())
  }

  /** onTextEdited, given the buffer after the user's edit: forget the
      completion, take the text as the history filter, and look for a ghost
      only when the cursor is at the end (otherwise the old ghost stays). */
  function OnTextEdited(e: Editor, edited: Buffer): (r: Editor)
    requires e.Valid() && edited.Valid()
    ensures r.Valid()
    ensures r.buf == edited && r.completion == ResetCompletion()
    ensures r.history == e.history.(prefixFilter := edited.text)
    ensures r.showMatchingHistory == e.showMatchingHistory && r.autoAcceptLcp == e.autoAcceptLcp
    ensures edited.cursor != |edited.text| ==> r.ghostSuffix == e.ghostSuffix
    ensures edited.cursor == |edited.text| ==> r == SearchMatchingHistoryAndShowGhost(r)
  {
    var noted := e.(buf := edited, completion := ResetCompletion(),
                    history := e.history.(prefixFilter := edited.text));
    if edited.cursor == |edited.text| then SearchMatchingHistoryAndShowGhost(noted) else noted
  }

  /** What the host can deliver to the editor. */
  datatype Intent =
    | ReturnPressed
    | EscapePressed
    | UpPressed
    | DownPressed
    | TabPressed
    | ShiftTabPressed
    | SelectionChanged
    | CursorPositionChanged
    | TextEdited(edited: Buffer)
    | SupplyCompletion(candidates: seq<string>)
    | ReplaceHistory(entries: seq<string>)

  /** One intent, dispatched to its handler; only Return, Escape and Tab emit signals. */
  function Step(e: Editor, intent: Intent): (r: Reaction)
    requires e.Valid()
    requires intent.TextEdited? ==> intent.edited.Valid()
    ensures r.editor.Valid()
    ensures !(intent.ReturnPressed? || intent.EscapePressed? || intent.TabPressed?) ==> r.events == []
  {
    match intent
    case ReturnPressed => OnReturnPressed(e)
    case EscapePressed => OnEscapePressed(e)
    case UpPressed => Reaction(OnUpPressed(e), [])
    case DownPressed => Reaction(OnDownPressed(e), [])
    case TabPressed => OnTabPressed(e)
    case ShiftTabPressed => Reaction(OnShiftTabPressed(e), [])
    case SelectionChanged => Reaction(OnSelectionOrCursorChanged(e), [])
    case CursorPositionChanged => Reaction(OnSelectionOrCursorChanged(e), [])
    case TextEdited(edited) => Reaction(OnTextEdited(e, edited), [])
    case SupplyCompletion(candidates) => Reaction(SetCompletion(e, candidates), [])
    case ReplaceHistory(entries) => Reaction(SetHistory(e, entries), [])
  }
}

=== FILE: command_edit_props.dfy ===
/** Properties of the command editor that relate several transitions, or pin
    down the navigation rules for all inputs. */
module CommandEditProperties {
  import opened Results
  import opened Strings
  import opened LineBuffer
  import opened CommonPrefix
  import opened CommandEdit

  // ----- completion round trips -----

  /** Proposing a candidate where nothing was selected and then cancelling it
      gives back the text and the cursor. */
  lemma ProposeThenCancelRestores(e: Editor, s: string)
    requires e.Valid() && !e.buf.HasSelectedText()
    ensures CancelCompletion(SetCurrentCompletion(e, s)).buf == Buffer(e.buf.text, e.buf.cursor, None)
  {
    InsertSelectedThenErase(e.buf, s);
  }

  /** Proposing a non-empty candidate where nothing was selected and then
      accepting it leaves it inserted as plain text, with the cursor after it. */
  lemma ProposeThenAcceptInserts(e: Editor, s: string)
    requires e.Valid() && !e.buf.HasSelectedText() && s != ""
    ensures var c := e.buf.cursor;
      AcceptCompletion(SetCurrentCompletion(e, s)).buf
        == Buffer(e.buf.text[..c] + s + e.buf.text[c..], c + |s|, None)
  {
    var c := e.buf.cursor;
    var p := SetCurrentCompletion(e, s);
    assert p.buf.text == e.buf.text[..c] + s + e.buf.text[c..] by {
      var t := p.buf.text;
      assert t == t[..c] + t[c..c + |s|] + t[c + |s|..];
    }
  }

  /** Accepting twice is accepting once: the first accept drops the selection. */
  lemma AcceptIsIdempotent(e: Editor)
    requires e.Valid()
    ensures AcceptCompletion(AcceptCompletion(e)) == AcceptCompletion(e)
  {
  }

  // ----- unfiltered history navigation -----

  /** Without a filter, navigation moves the index by the clipped step (not
      browsing counts as one past the end): targets outside `[0, |entries|]`
      do nothing, an entry target shows that entry with the cursor at its end,
      and the past-the-end target shows the (empty) filter and stops browsing. */
  lemma NavigateUnfiltered(e: Editor, delta: int)
    requires e.Valid() && e.history.prefixFilter == "" && delta != 0
    ensures var h := e.history;
      var target := (if h.index == -1 then |h.entries| else h.index) + ClipDelta(delta);
      var r := NavigateHistory(e, delta);
      && (target < 0 || target > |h.entries| ==> r == e)
      && (0 <= target < |h.entries| ==>
            r.buf == SetText(h.entries[target]) && r.history == h.(index := target) && r.ghostSuffix == "")
      && (target == |h.entries| ==>
            r.buf == SetText("") && r.history == HistoryState(h.entries, -1, "") && r.ghostSuffix == "")
  {
  }

  /** Up from "not browsing" shows the newest entry; Up at the oldest entry stays there. */
  lemma UpWalksBackAndStops(e: Editor)
    requires e.Valid() && e.history.prefixFilter == "" && e.history.entries != []
    ensures !e.history.Browsing() ==>
              OnUpPressed(e).history.index == |e.history.entries| - 1
              && OnUpPressed(e).buf.text == e.history.entries[|e.history.entries| - 1]
    ensures e.history.index == 0 ==> OnUpPressed(e) == e
  {
  }

  // ----- filtered history navigation -----

  /** With a filter, Up selects the nearest earlier entry that starts with the
      filter, keeping the filter; when there is none it does nothing. */
  lemma NavigateFilteredBack(e: Editor, delta: int)
    requires e.Valid() && e.history.prefixFilter != "" && delta < 0
    ensures var h := e.history;
      var from := if h.index == -1 then |h.entries| else h.index;
      var r := NavigateHistory(e, delta);
      && ((forall k :: 0 <= k < from ==> !StartsWith(h.entries[k], h.prefixFilter)) ==> r == e)
      && ((exists k :: 0 <= k < from && StartsWith(h.entries[k], h.prefixFilter)) ==>
            var j := r.history.index;
            && 0 <= j < from && StartsWith(h.entries[j], h.prefixFilter)
            && (forall k :: j < k < from ==> !StartsWith(h.entries[k], h.prefixFilter))
            && r.buf == SetText(h.entries[j])
            && r.history.prefixFilter == h.prefixFilter
            && r.ghostSuffix == "")
  {
  }

  /** With a filter, Down from a browsed entry selects the nearest later entry
      that starts with the filter; when there is none it restores the filter
      text, stops browsing and keeps the filter. Down when not browsing does
      nothing. */
  lemma NavigateFilteredForward(e: Editor, delta: int)
    requires e.Valid() && e.history.prefixFilter != "" && delta > 0
    ensures !e.history.Browsing() ==> NavigateHistory(e, delta) == e
    ensures var h := e.history;
      var r := NavigateHistory(e, delta);
      h.Browsing() ==>
        && ((exists k :: h.index < k < |h.entries| && StartsWith(h.entries[k], h.prefixFilter)) ==>
              var j := r.history.index;
              && h.index < j < |h.entries| && StartsWith(h.entries[j], h.prefixFilter)
              && (forall k :: h.index < k < j ==> !StartsWith(h.entries[k], h.prefixFilter))
              && r.buf == SetText(h.entries[j])
              && r.history.prefixFilter == h.prefixFilter
              && r.ghostSuffix == "")
        && ((forall k :: h.index < k < |h.entries| ==> !StartsWith(h.entries[k], h.prefixFilter)) ==>
              && r.buf == SetText(h.prefixFilter)
              && r.history == HistoryState(h.entries, -1, h.prefixFilter)
              && r == SearchMatchingHistoryAndShowGhost(r))
  {
  }

  /** Filtered recall over ["foo", "bar", "faz"] with filter "f": Up shows
      "faz", Up again "foo", and a third Up stays on "foo". */
  lemma FilteredHistoryExample(e: Editor)
    requires e.Valid()
    requires e.history == HistoryState(["foo", "bar", "faz"], -1, "f")
    ensures var up1 := OnUpPressed(e);
      var up2 := OnUpPressed(up1);
      && up1.buf.text == "faz" && up1.history.index == 2
      && up2.buf.text == "foo" && up2.history.index == 0
      && OnUpPressed(up2) == up2
  {
    var entries := ["foo", "bar", "faz"];
    assert entries[1][..1] != "f" by {
      assert entries[1][..1][0] == 'b';
    }
    assert StartsWith(entries[2], "f") && StartsWith(entries[0], "f");
  }

  // ----- completion -----

  /** On the auto-accept path the candidate list is never emptied, so the
      reset the code guards against never happens. */
  lemma AutoAcceptKeepsEveryCandidate(e: Editor, list: seq<string>)
    requires e.Valid() && AutoAccepts(e, list)
    ensures |list| > 0
    ensures |SetCompletion(e, list).completion.candidates| == |list|
  {
  }

  /** A requested completion without auto-accept proposes the candidate after
      the current one, selected, and settles the ghost; when there is none
      only the candidate list changes. */
  lemma SetCompletionProposesNext(e: Editor, list: seq<string>)
    requires e.Valid() && e.completion.requested && !AutoAccepts(e, list)
    ensures var r := SetCompletion(e, list);
      var n := e.completion.index + 1;
      && (0 <= n < |list| ==>
            && r.completion.index == n
            && r.buf == InsertTextAtCursor(e.buf, list[n], true)
            && r == SearchMatchingHistoryAndShowGhost(r))
      && (n >= |list| ==> r == e.(completion := e.completion.(candidates := list)))
  {
    var stored := e.(completion := e.completion.(candidates := list));
    assert SetCompletion(e, list) == NavigateCompletion(stored, 1);
  }

  /** On the auto-accept path, setCompletion is: insert the common prefix
      unselected, store the trimmed candidates, then propose the next one. */
  lemma SetCompletionAutoAcceptSteps(e: Editor, list: seq<string>)
    requires e.Valid() && AutoAccepts(e, list)
    ensures var lcp := LongestCommonPrefix(list);
      var proposing := e.(buf := InsertTextAtCursor(e.buf, lcp, false),
                          completion := e.completion.(candidates := TrimCandidates(list, |lcp|)));
      && proposing.Valid()
      && SetCompletion(e, list) == NavigateCompletion(proposing, 1)
  {
  }

  /** On the auto-accept path the common prefix is first inserted unselected,
      then the candidate after the current one, without that prefix, is
      proposed selected; when there is none only the prefix is inserted. */
  lemma SetCompletionAcceptsPrefix(e: Editor, list: seq<string>)
    requires e.Valid() && AutoAccepts(e, list)
    ensures var r := SetCompletion(e, list);
      var n := e.completion.index + 1;
      var lcp := LongestCommonPrefix(list);
      var inserted := InsertTextAtCursor(e.buf, lcp, false);
      && (0 <= n < |list| ==>
            r.completion.index == n && r.buf == InsertTextAtCursor(inserted, Mid(list[n], |lcp|), true))
      && (n >= |list| ==> r.completion.index == e.completion.index && r.buf == inserted)
  {
    SetCompletionAutoAcceptSteps(e, list);
    var lcp := LongestCommonPrefix(list);
    var trimmed := TrimCandidates(list, |lcp|);
    var proposing := e.(buf := InsertTextAtCursor(e.buf, lcp, false),
                        completion := e.completion.(candidates := trimmed));
    var n := e.completion.index + 1;
    if 0 <= n < |list| {
      assert trimmed[n] == Mid(list[n], |lcp|);
    }
  }

  /** Completing the token "f" with ["oo", "op"]: the common "o" is inserted,
      the candidates become ["o", "p"], and "o" is proposed, selected. */
  lemma CompletionExample(hist: HistoryState)
    requires hist.Valid()
    ensures var e := Editor(Buffer("f", 1, None), hist, CompletionState([], true, -1), "", false, true);
      var r := SetCompletion(e, ["oo", "op"]);
      && r.buf == Buffer("foo", 3, Some(Span(2, 1)))
      && r.completion == CompletionState(["o", "p"], true, 0)
  {
    LcpExample();
    var e := Editor(Buffer("f", 1, None), hist, CompletionState([], true, -1), "", false, true);
    var trimmed := TrimCandidates(["oo", "op"], 1);
    assert trimmed == ["o", "p"];
    var inserted := InsertTextAtCursor(e.buf, "o", false);
    assert inserted.text == "fo";
    var proposed := InsertTextAtCursor(inserted, "o", true);
    assert proposed.text == "foo";
    var accepted := e.(buf := inserted, completion := CompletionState(trimmed, true, -1));
    assert AutoAccepts(e, ["oo", "op"]);
    assert SetCompletion(e, ["oo", "op"]) == NavigateCompletion(accepted, 1);
    assert NavigateCompletion(accepted, 1).completion == CompletionState(["o", "p"], true, 0);
  }

  /** A single candidate ["x"] is inserted whole and leaves the list [""],
      with "" proposed: not a reset. */
  lemma SingleCandidateExample(hist: HistoryState)
    requires hist.Valid()
    ensures var e := Editor(Buffer("f", 1, None), hist, CompletionState([], true, -1), "", false, true);
      var r := SetCompletion(e, ["x"]);
      && r.buf == Buffer("fx", 2, None)
      && r.completion == CompletionState([""], true, 0)
  {
    var e := Editor(Buffer("f", 1, None), hist, CompletionState([], true, -1), "", false, true);
    assert LongestCommonPrefix(["x"]) == "x";
    assert TrimCandidates(["x"], 1) == [""];
    var inserted := InsertTextAtCursor(e.buf, "x", false);
    assert inserted.text == "fx";
  }

  /** Tab asks for completion once; a second Tab while the answer is pending
      does nothing. */
  lemma TabAsksOnce(e: Editor)
    requires e.Valid() && e.completion.candidates == [] && !e.completion.requested
    ensures var first := OnTabPressed(e);
      && first.events == [AskCompletion(e.buf.text, e.buf.cursor)]
      && OnTabPressed(first.editor) == Reaction(first.editor, [])
  {
  }

  /** Cycling past the last candidate does nothing: no wrap-around. */
  lemma CyclingStopsAtLast(e: Editor)
    requires e.Valid() && e.completion.candidates != []
    requires e.completion.index == |e.completion.candidates| - 1
    ensures OnTabPressed(e) == Reaction(e, [])
  {
  }

  /** Forgetting the completion is idempotent, and after it Tab asks afresh. */
  lemma ResetsAreIdempotent(e: Editor)
    requires e.Valid()
    ensures OnSelectionOrCursorChanged(OnSelectionOrCursorChanged(e)) == OnSelectionOrCursorChanged(e)
    ensures OnTabPressed(OnSelectionOrCursorChanged(e)).events == [AskCompletion(e.buf.text, e.buf.cursor)]
  {
  }

  // ----- ghost suggestion -----

  /** With history ["foo bar"] and matching on, typing "foo" with the cursor at
      the end shows the ghost " bar". */
  lemma GhostExample(e: Editor)
    requires e.Valid() && e.showMatchingHistory
    requires e.history.entries == ["foo bar"]
    ensures OnTextEdited(e, Buffer("foo", 3, None)).ghostSuffix == " bar"
  {
    assert StartsWith("foo bar", "foo");
    assert Mid("foo bar", 3) == " bar";
  }

  /** When a ghost is shown after an edit at the end, the text followed by the
      ghost is a history entry. */
  lemma GhostCompletesToEntry(e: Editor, edited: Buffer)
    requires e.Valid() && edited.Valid() && edited.cursor == |edited.text|
    ensures var r := OnTextEdited(e, edited);
      r.ghostSuffix != "" ==> edited.text + r.ghostSuffix in e.history.entries
  {
    var r := OnTextEdited(e, edited);
    if r.ghostSuffix != "" {
      assert r.showMatchingHistory && edited.text != "";
      var k :| 0 <= k < |e.history.entries| && e.history.entries[k] == edited.text + r.ghostSuffix;
    }
  }

  // ----- intents in sequence -----

  /** The host delivering intents one after another; the signals are collected in order. */
  function Run(e: Editor, intents: seq<Intent>): (r: Reaction)
    requires e.Valid()
    requires forall k :: 0 <= k < |intents| ==> intents[k].TextEdited? ==> intents[k].edited.Valid()
    decreases |intents|
    ensures r.editor.Valid()
    ensures (forall k :: 0 <= k < |intents| ==> !intents[k].ReturnPressed?) ==>
              forall k :: 0 <= k < |r.events| ==> !r.events[k].Execute?
  {
    if intents == [] then Reaction(e, [])
    else
      var first := Step(e, intents[0]);
      var rest := Run(first.editor, intents[1..]);
      assert forall k :: 0 <= k < |intents[1..]| ==> intents[1..][k] == intents[k + 1];
      Reaction(rest.editor, first.events + rest.events)
  }
}

=== FILE: common_prefix.dfy ===
/** The longest-common-prefix helper the editor uses to auto-accept the part
    that every completion candidate shares.

    The helper compares each later string with the running result only up to
    the shorter of the two lengths. The branch meant to shorten the result to a
    later string that is a prefix of it can never be taken, because it tests
    `j == |s|` inside a loop that only runs while `j < |s|`. So a shorter string
    never truncates the result: ["foo", "fo"] gives "foo". The model keeps that
    behaviour; `LongestCommonPrefix`'s contract states exactly what is computed. */
module CommonPrefix {
  import opened Strings

  /** `p` and `s` have the same character at every position both have. */
  ghost predicate Agree(p: string, s: string)
  {
    forall k :: 0 <= k < |p| && k < |s| ==> p[k] == s[k]
  }

  /** `p` agrees with every string of the list. */
  ghost predicate AgreesWithAll(p: string, strs: seq<string>)
  {
    forall i :: 0 <= i < |strs| ==> Agree(p, strs[i])
  }

  /** `p` cannot be extended along the first string: either it is all of it, or
      some string has a different character at position `|p|`. */
  ghost predicate Blocked(p: string, strs: seq<string>)
  {
    |strs| > 0 && |p| < |strs[0]| ==>
      exists i :: 0 <= i < |strs| && |p| < |strs[i]| && strs[i][|p|] != strs[0][|p|]
  }

  /** The inner loop: scan `result` and `s` together from position `j` while
      both have characters, and cut `result` at the first difference. */
  function CutAtMismatch(result: string, s: string, j: nat): (r: string)
    requires j <= |result|
    requires forall k :: 0 <= k < j && k < |s| ==> result[k] == s[k]
    decreases |result| - j
    ensures StartsWith(result, r)
    ensures Agree(r, s)
    ensures |r| < |result| ==> |r| < |s| && s[|r|] != result[|r|]
  {
    if j >= |result| || j >= |s| then result
    else if result[j] != s[j] then result[..j]
    else CutAtMismatch(result, s, j + 1)
  }

  /** The outer loop over the strings after the first. */
  function LcpLoop(strs: seq<string>, i: nat, result: string): (r: string)
    requires 1 <= i <= |strs|
    requires StartsWith(strs[0], result)
    requires forall k :: 0 <= k < i ==> Agree(result, strs[k])
    requires Blocked(result, strs)
    decreases |strs| - i
    ensures StartsWith(strs[0], r)
    ensures AgreesWithAll(r, strs)
    ensures Blocked(r, strs)
  {
    if i == |strs| then result
    else
      var cut := CutAtMismatch(result, strs[i], 0);
      assert forall k :: 0 <= k < i + 1 ==> Agree(cut, strs[k]) by {
        forall k | 0 <= k < i
          ensures Agree(cut, strs[k])
        {
          assert Agree(result, strs[k]);
        }
      }
      LcpLoop(strs, i + 1, cut)
  }

  /** longestCommonPrefix: "" for an empty list; otherwise the longest prefix of
      the first string that agrees with every string on their common length. */
  function LongestCommonPrefix(strs: seq<string>): (r: string)
    ensures |strs| == 0 ==> r == ""
    ensures |strs| > 0 ==> StartsWith(strs[0], r) && AgreesWithAll(r, strs) && Blocked(r, strs)
  {
    if |strs| == 0 then ""
    else LcpLoop(strs, 1, strs[0])
  }

  /** The result is a prefix of every string that is at least as long as it. */
  lemma LcpPrefixOfLonger(strs: seq<string>, i: nat)
    requires i < |strs|
    requires |LongestCommonPrefix(strs)| <= |strs[i]|
    ensures StartsWith(strs[i], LongestCommonPrefix(strs))
  {
    var r := LongestCommonPrefix(strs);
    assert Agree(r, strs[i]);
  }

  /** Maximality: a prefix of the first string agrees with every string exactly
      when it is no longer than the result. */
  lemma LcpIsLongest(strs: seq<string>, m: nat)
    requires |strs| > 0 && m <= |strs[0]|
    ensures AgreesWithAll(strs[0][..m], strs) <==> m <= |LongestCommonPrefix(strs)|
  {
    var r := LongestCommonPrefix(strs);
    var p := strs[0][..m];
    if m <= |r| {
      forall i | 0 <= i < |strs|
        ensures Agree(p, strs[i])
      {
        assert Agree(r, strs[i]);
        forall k | 0 <= k < |p| && k < |strs[i]|
          ensures p[k] == strs[i][k]
        {
          assert p[k] == r[k];
        }
      }
    } else {
      var i :| 0 <= i < |strs| && |r| < |strs[i]| && strs[i][|r|] != strs[0][|r|];
      assert p[|r|] == strs[0][|r|];
      assert !Agree(p, strs[i]);
    }
  }

  /** The quirk: a later string that is a proper prefix of the result does not
      shorten it. */
  lemma LcpIgnoresShorterString()
    ensures LongestCommonPrefix(["foo", "fo"]) == "foo"
  {
    assert CutAtMismatch("foo", "fo", 2) == "foo";
    assert CutAtMismatch("foo", "fo", 1) == "foo";
    assert CutAtMismatch("foo", "fo", 0) == "foo";
    assert LcpLoop(["foo", "fo"], 1, "foo") == LcpLoop(["foo", "fo"], 2, "foo");
  }

  /** The candidates of the completion example share the prefix "o". */
  lemma LcpExample()
    ensures LongestCommonPrefix(["oo", "op"]) == "o"
  {
    assert Blocked("o", ["oo", "op"]) by {
      assert ["oo", "op"][1][1] != ["oo", "op"][0][1];
    }
    assert CutAtMismatch("oo", "op", 1) == "o";
    assert CutAtMismatch("oo", "op", 0) == "o";
    assert LcpLoop(["oo", "op"], 1, "oo") == LcpLoop(["oo", "op"], 2, "o");
  }
}

=== FILE: demo_window.dfy ===
/** The demo main window: the completion provider that links the tokenizer to
    the editor's completion, and the execute handler that grows the history. */
module DemoWindow {
  import opened Results
  import opened Strings
  import opened Tokenizer
  import opened CommandEdit

  /** Why the demo declines to complete: the tokenizer lookup failed, or the
      cursor is not at the end of the token under it. */
  datatype Refusal = TokenizerFailed(error: TokenError) | MiddleOfToken

  /** The window's own history, its completion words, and the editor. */
  datatype MainWindow = MainWindow(history: seq<string>, words: seq<string>, edit: Editor)
  {
    /** The editor is valid and holds the window's history. */
    predicate Valid()
    {
      edit.Valid() && edit.history.entries == history
    }
  }

  /** What each word starting with `tok` adds to it, in word order. */
  function WordSuffixes(words: seq<string>, tok: string): (r: seq<string>)
    ensures |r| <= |words|
    ensures forall k :: 0 <= k < |r| ==> tok + r[k] in words
    ensures forall w :: w in words && StartsWith(w, tok) ==> Mid(w, |tok|) in r
  {
    if words == [] then []
    else
      var rest := WordSuffixes(words[1..], tok);
      if StartsWith(words[0], tok) then
        MidAfterPrefix(words[0], tok);
        [Mid(words[0], |tok|)] + rest
      else rest
  }

  /** Word order is kept: the suffixes of a concatenation are the
      concatenation of the suffixes. */
  lemma {:induction false} WordSuffixesAppend(a: seq<string>, b: seq<string>, tok: string)
    ensures WordSuffixes(a + b, tok) == WordSuffixes(a, tok) + WordSuffixes(b, tok)
  {
    if a == [] {
      assert a + b == b;
    } else {
      assert (a + b)[0] == a[0];
      assert (a + b)[1..] == a[1..] + b;
      WordSuffixesAppend(a[1..], b, tok);
    }
  }

  /** What the lookup in onAskCompletion finds on a freshly tokenized command:
      the token ending at the cursor when there is one, and the token the cursor
      stands strictly inside otherwise. */
  lemma TokenUnderCursor(cmd: string, pos: int)
    ensures var found := GetTokenAtCharPos(SetCommand(CommandTokenizer("", []), cmd), pos);
      var toks := Tokenize(cmd);
      && ((found.Success? && found.value.end == pos) <==> exists k :: 0 <= k < |toks| && toks[k].end == pos)
      && (forall k :: 0 <= k < |toks| && toks[k].end == pos ==> found == Success(toks[k]))
      && (forall k :: 0 <= k < |toks| && toks[k].start <= pos < toks[k].end ==> found == Success(toks[k]))
  {
    var t := SetCommand(CommandTokenizer("", []), cmd);
    var toks := t.tokens;
    var found := GetTokenAtCharPos(t, pos);
    forall k | 0 <= k < |toks| && toks[k].end == pos
      ensures found == Success(toks[k])
    {
      TokenAtItsEnd(t, k);
    }
    forall k | 0 <= k < |toks| && toks[k].start <= pos < toks[k].end
      ensures found == Success(toks[k])
    {
      assert toks[k].Overlaps(pos);
      assert IsMaximalRun(t.command, toks[k]);
      var j :| 0 <= j < |toks| && toks[j] == found.value && found.value.Overlaps(pos);
      OverlapIsUnique(toks, pos);
    }
  }

  /** The body of onAskCompletion before it hands the list to the editor:
      tokenize the command, find the token under the cursor, refuse unless the
      cursor is exactly at its end, else offer the suffixes of the words that
      start with it. */
  function CompletionsAt(words: seq<string>, cmd: string, cursorPos: int): (r: Result<seq<string>, Refusal>)
    ensures cursorPos < 0 || cursorPos > |cmd| ==> r == Failure(TokenizerFailed(OutOfBounds))
    ensures r.Success? <==> exists k :: 0 <= k < |Tokenize(cmd)| && Tokenize(cmd)[k].end == cursorPos
    ensures forall k :: 0 <= k < |Tokenize(cmd)| && Tokenize(cmd)[k].end == cursorPos ==>
              r == Success(WordSuffixes(words, Tokenize(cmd)[k].text))
    ensures (exists k :: 0 <= k < |Tokenize(cmd)| && Tokenize(cmd)[k].start <= cursorPos < Tokenize(cmd)[k].end) ==>
              r == Failure(MiddleOfToken)
  {
    TokenUnderCursor(cmd, cursorPos);
    var found := GetTokenAtCharPos(SetCommand(CommandTokenizer("", []), cmd), cursorPos);
    if found.Failure? then Failure(TokenizerFailed(found.error))
    else if cursorPos != found.value.end then Failure(MiddleOfToken)
    else Success(WordSuffixes(words, found.value.text))
  }

  /** onAskCompletion: hand the offered list to the editor; a refusal leaves
      everything as it was. */
  function OnAskCompletion(w: MainWindow, cmd: string, cursorPos: int): (r: MainWindow)
    requires w.Valid()
    ensures r.Valid()
    ensures r.history == w.history && r.words == w.words
    ensures CompletionsAt(w.words, cmd, cursorPos).Failure? ==> r == w
    ensures CompletionsAt(w.words, cmd, cursorPos).Success? ==>
              r.edit == SetCompletion(w.edit, CompletionsAt(w.words, cmd, cursorPos).value)
  {
    match CompletionsAt(w.words, cmd, cursorPos)
    case Success(comp) => w.(edit := SetCompletion(w.edit, comp))
    case Failure(_) => w
  }

  /** onExecute: append the command to the history, clear the editor and give
      it the new history, so it is not browsing and has no filter. */
  function OnExecute(w: MainWindow, s: string): (r: MainWindow)
    requires w.Valid()
    ensures r.Valid()
    ensures r.history == w.history + [s] && r.words == w.words
    ensures r.edit.buf.text == "" && r.edit.history == HistoryState(w.history + [s], -1, "")
    ensures r.edit.completion == ResetCompletion() && r.edit.ghostSuffix == ""
    ensures r.edit.showMatchingHistory == w.edit.showMatchingHistory && r.edit.autoAcceptLcp == w.edit.autoAcceptLcp
  {
    var history := w.history + [s];
    w.(history := history, edit := SetHistory(CommandEdit.Clear(w.edit), history))
  }

  /** The window's handling of one signal from the editor; `escape` is only logged. */
  function Deliver(w: MainWindow, ev: Event): (r: MainWindow)
    requires w.Valid()
    ensures r.Valid()
    ensures r.words == w.words
  {
    match ev
    case Execute(s) => OnExecute(w, s)
    case AskCompletion(cmd, pos) => OnAskCompletion(w, cmd, pos)
    case Escape => w
  }

  /** The window's handling of the signals of one intent, in order. */
  function DeliverAll(w: MainWindow, events: seq<Event>): (r: MainWindow)
    requires w.Valid()
    decreases |events|
    ensures r.Valid()
    ensures r.words == w.words
  {
    if events == [] then w else DeliverAll(Deliver(w, events[0]), events[1..])
  }

  /** Return on a typed command, with nothing selected, runs it: the history
      gains the command and the editor is left empty and not browsing. */
  lemma ReturnExecutesCommand(w: MainWindow)
    requires w.Valid() && w.edit.buf.text != "" && !w.edit.buf.HasSelectedText()
    ensures var rx := OnReturnPressed(w.edit);
      var after := DeliverAll(w.(edit := rx.editor), rx.events);
      && after.history == w.history + [w.edit.buf.text]
      && after.edit.buf.text == ""
      && after.edit.history == HistoryState(after.history, -1, "")
  {
    var rx := OnReturnPressed(w.edit);
    assert rx.events == [Execute(w.edit.buf.text)];
    assert rx.editor == w.edit;
  }

  /** Tab with the cursor inside a token (not at its end) asks for completion,
      the provider refuses, and the only change is that a request is now
      pending. */
  lemma TabInsideTokenOffersNothing(w: MainWindow, k: nat)
    requires w.Valid()
    requires w.edit.completion.candidates == [] && !w.edit.completion.requested
    requires k < |Tokenize(w.edit.buf.text)|
    requires Tokenize(w.edit.buf.text)[k].start <= w.edit.buf.cursor < Tokenize(w.edit.buf.text)[k].end
    ensures var rx := OnTabPressed(w.edit);
      DeliverAll(w.(edit := rx.editor), rx.events)
        == w.(edit := w.edit.(completion := w.edit.completion.(requested := true)))
  {
    var rx := OnTabPressed(w.edit);
    assert rx.events == [AskCompletion(w.edit.buf.text, w.edit.buf.cursor)];
    var c := CompletionsAt(w.words, w.edit.buf.text, w.edit.buf.cursor);
    assert c == Failure(MiddleOfToken);
  }
}

=== FILE: line_buffer.dfy ===
/** The line-edit buffer the command widget works on: text, cursor and an
    optional selection, with the few editing primitives the widget uses. */
module LineBuffer {
  import opened Results

  /** A selected range: `len` characters from `start`. */
  datatype Span = Span(start: nat, len: nat)

  datatype Buffer = Buffer(text: string, cursor: nat, selection: Option<Span>)
  {
    /** The cursor is inside the text; a selection is non-empty, inside the
        text, and the cursor stands at one of its ends. */
    predicate Valid()
    {
      && cursor <= |text|
      && (selection.Some? ==>
            && selection.value.len > 0
            && selection.value.start + selection.value.len <= |text|
            && (cursor == selection.value.start || cursor == selection.value.start + selection.value.len))
    }

    predicate HasSelectedText()
    {
      selection.Some?
    }

    /** The selected characters, or "" when nothing is selected. */
    function SelectedText(): (r: string)
      requires Valid()
      ensures |r| == if selection.Some? then selection.value.len else 0
    {
      match selection
      case None => ""
      case Some(sp) => text[sp.start..sp.start + sp.len]
    }

    /** Where inserted text goes: the selection start, or the cursor. */
    function InsertionPoint(): (c: nat)
      requires Valid()
      ensures c + |SelectedText()| <= |text|
    {
      match selection
      case None => cursor
      case Some(sp) => sp.start
    }
  }

  /** QLineEdit::setText: the new text, no selection, the cursor at the end. */
  function SetText(s: string): (r: Buffer)
    ensures r.Valid()
    ensures r.text == s && r.cursor == |s| && !r.HasSelectedText()
  {
    Buffer(s, |s|, None)
  }

  /** moveCursorToEnd: same text, cursor at the end, selection dropped. */
  function MoveCursorToEnd(b: Buffer): (r: Buffer)
    ensures r.Valid()
    ensures r.text == b.text && r.cursor == |r.text| && !r.HasSelectedText()
  {
    Buffer(b.text, |b.text|, None)
  }

  /** insertTextAtCursor: replace the selection (or insert at the cursor) with
      `txt`, leave the cursor after it, and select it when `selected` holds.
      An empty selection is no selection, as in QLineEdit. */
  function InsertTextAtCursor(b: Buffer, txt: string, selected: bool): (r: Buffer)
    requires b.Valid()
    ensures r.Valid()
    ensures var c := b.InsertionPoint(); var n := |b.SelectedText()|;
      && |r.text| == |b.text| - n + |txt|
      && r.text[..c] == b.text[..c]
      && r.text[c..c + |txt|] == txt
      && r.text[c + |txt|..] == b.text[c + n..]
      && r.cursor == c + |txt|
      && (r.HasSelectedText() <==> selected && txt != "")
      && (r.HasSelectedText() ==> r.selection.value == Span(c, |txt|))
  {
    var c := b.InsertionPoint();
    var before := b.text[..c];
    var after := b.text[c + |b.SelectedText()|..];
    var newText := before + txt + after;
    assert newText[..c] == before;
    assert newText[c..c + |txt|] == txt;
    assert newText[c + |txt|..] == after;
    Buffer(newText, |before| + |txt|, if selected && txt != "" then Some(Span(|before|, |txt|)) else None)
  }

  /** Inserting selected text where nothing was selected, then replacing the
      selection with nothing, gives back the original text and cursor. */
  lemma InsertSelectedThenErase(b: Buffer, s: string)
    requires b.Valid() && !b.HasSelectedText()
    ensures var b2 := InsertTextAtCursor(InsertTextAtCursor(b, s, true), "", true);
      b2 == Buffer(b.text, b.cursor, None)
  {
    var b1 := InsertTextAtCursor(b, s, true);
    var b2 := InsertTextAtCursor(b1, "", true);
    var c := b.cursor;
    assert b1.InsertionPoint() == c;
    assert b2.text == b1.text[..c] + b1.text[c + |s|..];
    assert b2.text == b.text[..c] + b.text[c..];
    assert b.text[..c] + b.text[c..] == b.text;
  }
}

=== FILE: results.dfy ===
/** The two ways an operation of the model reports "nothing here" or an error
    instead of a value: the widget's own code throws or silently returns. */
module Results {

  datatype Option<+T> = None | Some(value: T)

  datatype Result<+T, +E> = Success(value: T) | Failure(error: E)
}

=== FILE: strings.dfy ===
/** The few QString operations the widget relies on, over `seq<char>`. */
module Strings {

  /** QString::startsWith: `p` is a prefix of `s`; every string starts with "". */
  predicate StartsWith(s: string, p: string)
  {
    |p| <= |s| && s[..|p|] == p
  }

  /** QString::mid(n) without a length: the characters from position `n` on,
      and the empty string when `n` lies past the end (Qt does not fail). */
  function Mid(s: string, n: nat): (r: string)
    ensures n <= |s| ==> s[..n] + r == s
    ensures n >= |s| ==> r == ""
  {
    if n <= |s| then s[n..] else ""
  }

  /** Cutting a known prefix off with `mid` leaves exactly the rest of the string. */
  lemma MidAfterPrefix(s: string, p: string)
    requires StartsWith(s, p)
    ensures p + Mid(s, |p|) == s
    ensures |Mid(s, |p|)| == |s| - |p|
  {
  }
}

=== FILE: tokenizer.dfy ===
/** The command tokenizer: splits a command line into whitespace-separated
    tokens with character ranges, and finds the token under a cursor. */
module Tokenizer {
  import opened Results

  /** A token and its range in the command. `end` is the position of the
      boundary that closed the token, i.e. one past its last character. */
  datatype Token = Token(text: string, kind: int, start: int, end: int)
  {
    /** Inclusive at both ends: a cursor standing just after the token is on it. */
    predicate Overlaps(index: int)
    {
      start <= index <= end
    }
  }

  /** The two failures of a lookup: the index is outside the command, or no token covers it. */
  datatype TokenError = OutOfBounds | NoToken

  /** The tokenizer object: the last command given and the tokens found in it. */
  datatype CommandTokenizer = CommandTokenizer(command: string, tokens: seq<Token>)
  {
    /** The token list is the one the whitespace strategy computes for the command. */
    predicate Valid()
    {
      tokens == Tokenize(command)
    }
  }

  /** The separators of the whitespace strategy. */
  predicate IsSeparator(c: char)
  {
    c == ' ' || c == '\t' || c == '\n' || c == '\r'
  }

  /** `t` is a maximal run of non-separator characters of `cmd`, with its text and range. */
  ghost predicate IsMaximalRun(cmd: string, t: Token)
  {
    && 0 <= t.start < t.end <= |cmd|
    && t.text == cmd[t.start..t.end]
    && t.kind == 0
    && (forall p :: t.start <= p < t.end ==> !IsSeparator(cmd[p]))
    && (t.start == 0 || IsSeparator(cmd[t.start - 1]))
    && (t.end == |cmd| || IsSeparator(cmd[t.end]))
  }

  /** Left to right, and each token ends strictly before the next one starts. */
  ghost predicate Ordered(toks: seq<Token>)
  {
    forall a, b :: 0 <= a < b < |toks| ==> toks[a].end < toks[b].start
  }

  /** Position `p` lies inside the text of some token. */
  ghost predicate Covered(toks: seq<Token>, p: int)
  {
    exists k :: 0 <= k < |toks| && toks[k].start <= p < toks[k].end
  }

  /** Every non-separator character before `upto` belongs to some token. */
  ghost predicate CoversUpTo(cmd: string, toks: seq<Token>, upto: int)
  {
    forall p :: 0 <= p < upto && p < |cmd| && !IsSeparator(cmd[p]) ==> Covered(toks, p)
  }

  /** The tokens of `cmd` are exactly its maximal non-separator runs, in order. */
  ghost predicate WellFormed(cmd: string, toks: seq<Token>)
  {
    && (forall k :: 0 <= k < |toks| ==> IsMaximalRun(cmd, toks[k]))
    && Ordered(toks)
    && CoversUpTo(cmd, toks, |cmd|)
  }

  /** What holds before position `i` is scanned: `cur` is the run of
      non-separators since the last separator, and `acc` holds the maximal runs
      that end before it, in order, covering every non-separator before it. */
  ghost predicate LoopInvariant(cmd: string, i: nat, cur: Token, acc: seq<Token>)
  {
    && i <= |cmd|
    && cur.kind == 0 && 0 <= cur.start <= i
    && cur.text == cmd[cur.start..i]
    && (forall p :: cur.start <= p < i ==> !IsSeparator(cmd[p]))
    && (cur.start == 0 || IsSeparator(cmd[cur.start - 1]))
    && (forall k :: 0 <= k < |acc| ==> IsMaximalRun(cmd, acc[k]) && acc[k].end < cur.start)
    && Ordered(acc)
    && CoversUpTo(cmd, acc, cur.start)
  }

  /** The token list after the boundary at `i`: the current run is emitted
      only when it is non-empty. */
  function Flush(cur: Token, acc: seq<Token>, i: int): seq<Token>
  {
    if cur.text != "" then acc + [cur.(end := i)] else acc
  }

  /** The scanning loop of the whitespace tokenizer, one character position per
      call. `cur` is the token being accumulated, `acc` the tokens emitted. The
      position one past the end acts as a separator, so the final flush happens
      at `i == |cmd|`. */
  function TokenizeLoop(cmd: string, i: nat, cur: Token, acc: seq<Token>): seq<Token>
    decreases |cmd| - i
  {
    if i >= |cmd| then Flush(cur, acc, i)
    else if IsSeparator(cmd[i]) then
      TokenizeLoop(cmd, i + 1, cur.(text := "", start := i + 1, end := i + 1), Flush(cur, acc, i))
    else
      TokenizeLoop(cmd, i + 1, cur.(text := cur.text + [cmd[i]]), acc)
  }

  /** The loop keeps its invariant to the end, where the tokens are well formed. */
  lemma {:induction false} TokenizeLoopWellFormed(cmd: string, i: nat, cur: Token, acc: seq<Token>)
    requires LoopInvariant(cmd, i, cur, acc)
    decreases |cmd| - i
    ensures WellFormed(cmd, TokenizeLoop(cmd, i, cur, acc))
  {
    if i == |cmd| || IsSeparator(cmd[i]) {
      FlushKeepsInvariant(cmd, i, cur, acc);
      if i < |cmd| {
        TokenizeLoopWellFormed(cmd, i + 1, cur.(text := "", start := i + 1, end := i + 1), Flush(cur, acc, i));
      }
    } else {
      ExtendKeepsInvariant(cmd, i, cur, acc);
      TokenizeLoopWellFormed(cmd, i + 1, cur.(text := cur.text + [cmd[i]]), acc);
    }
  }

  /** Appending a non-separator to the current run keeps the invariant. */
  lemma ExtendKeepsInvariant(cmd: string, i: nat, cur: Token, acc: seq<Token>)
    requires LoopInvariant(cmd, i, cur, acc)
    requires i < |cmd| && !IsSeparator(cmd[i])
    ensures LoopInvariant(cmd, i + 1, cur.(text := cur.text + [cmd[i]]), acc)
  {
    assert cmd[cur.start..i + 1] == cmd[cur.start..i] + [cmd[i]];
  }

  /** Closing the current run at a separator keeps the invariant for the next
      position; closing it at the end of the command yields well-formed tokens. */
  lemma FlushKeepsInvariant(cmd: string, i: nat, cur: Token, acc: seq<Token>)
    requires LoopInvariant(cmd, i, cur, acc)
    requires i == |cmd| || IsSeparator(cmd[i])
    ensures i < |cmd| ==> LoopInvariant(cmd, i + 1, cur.(text := "", start := i + 1, end := i + 1), Flush(cur, acc, i))
    ensures i == |cmd| ==> WellFormed(cmd, Flush(cur, acc, i))
  {
    FlushKeepsRuns(cmd, i, cur, acc);
    FlushKeepsOrder(cmd, i, cur, acc);
    FlushKeepsCover(cmd, i, cur, acc);
  }

  /** Every emitted token, old or new, is a maximal run ending before `i + 1`. */
  lemma FlushKeepsRuns(cmd: string, i: nat, cur: Token, acc: seq<Token>)
    requires LoopInvariant(cmd, i, cur, acc)
    requires i == |cmd| || IsSeparator(cmd[i])
    ensures forall k :: 0 <= k < |Flush(cur, acc, i)| ==>
      IsMaximalRun(cmd, Flush(cur, acc, i)[k]) && Flush(cur, acc, i)[k].end < i + 1
  {
    var found := Flush(cur, acc, i);
    if cur.text != "" {
      var t := cur.(end := i);
      assert IsMaximalRun(cmd, t);
      assert forall k :: 0 <= k < |acc| ==> found[k] == acc[k];
      assert found[|acc|] == t;
    }
  }

  /** The new token starts after every emitted one ends. */
  lemma FlushKeepsOrder(cmd: string, i: nat, cur: Token, acc: seq<Token>)
    requires LoopInvariant(cmd, i, cur, acc)
    ensures Ordered(Flush(cur, acc, i))
  {
    var found := Flush(cur, acc, i);
    if cur.text != "" {
      forall a, b | 0 <= a < b < |found|
        ensures found[a].end < found[b].start
      {
        if b == |acc| {
          assert found[b] == cur.(end := i);
        }
      }
    }
  }

  /** The new token covers the run between the last separator and `i`. */
  lemma FlushKeepsCover(cmd: string, i: nat, cur: Token, acc: seq<Token>)
    requires LoopInvariant(cmd, i, cur, acc)
    requires i == |cmd| || IsSeparator(cmd[i])
    ensures CoversUpTo(cmd, Flush(cur, acc, i), i + 1)
  {
    var found := Flush(cur, acc, i);
    forall p | 0 <= p < i + 1 && p < |cmd| && !IsSeparator(cmd[p])
      ensures Covered(found, p)
    {
      if p < cur.start {
        var k :| 0 <= k < |acc| && acc[k].start <= p < acc[k].end;
        assert found[k] == acc[k];
      } else {
        assert found[|acc|] == cur.(end := i);
      }
    }
  }

  /** QSimpleCommandTokenizer::tokenize on a fresh token list. */
  function Tokenize(cmd: string): (r: seq<Token>)
    ensures WellFormed(cmd, r)
  {
    TokenizeLoopWellFormed(cmd, 0, Token("", 0, 0, 0), []);
    TokenizeLoop(cmd, 0, Token("", 0, 0, 0), [])
  }

  /** QCommandTokenizer::clear: forget the command and its tokens. */
  function Clear(tz: CommandTokenizer): (r: CommandTokenizer)
    ensures r.Valid()
    ensures r.command == "" && r.tokens == []
  {
    CommandTokenizer("", [])
  }

  /** QCommandTokenizer::setCommand: clear, store the command, tokenize it. */
  function SetCommand(tz: CommandTokenizer, cmd: string): (r: CommandTokenizer)
    ensures r.Valid()
    ensures r.command == cmd
    ensures WellFormed(cmd, r.tokens)
  {
    var cleared := Clear(tz);
    CommandTokenizer(cmd, cleared.tokens + Tokenize(cmd))
  }

  /** QCommandTokenizer::getTokens: the tokens, left to right. */
  function GetTokens(tz: CommandTokenizer): (r: seq<Token>)
    requires tz.Valid()
    ensures WellFormed(tz.command, r)
    ensures r == tz.tokens
  {
    tz.tokens
  }

  /** The index of the first token from `from` on that overlaps `index`. */
  function FirstOverlap(toks: seq<Token>, index: int, from: nat): (r: Option<nat>)
    requires from <= |toks|
    decreases |toks| - from
    ensures r.Some? ==> from <= r.value < |toks| && toks[r.value].Overlaps(index)
    ensures r.Some? ==> forall j :: from <= j < r.value ==> !toks[j].Overlaps(index)
    ensures r.None? ==> forall j :: from <= j < |toks| ==> !toks[j].Overlaps(index)
  {
    if from == |toks| then None
    else if toks[from].Overlaps(index) then Some(from)
    else FirstOverlap(toks, index, from + 1)
  }

  /** QCommandTokenizer::getTokenAtCharPos: out of bounds outside `[0, |command|]`,
      otherwise the first token that overlaps the index, or "no token". */
  function GetTokenAtCharPos(tz: CommandTokenizer, index: int): (r: Result<Token, TokenError>)
    ensures r == Failure(OutOfBounds) <==> index < 0 || index > |tz.command|
    ensures r == Failure(NoToken) <==>
      0 <= index <= |tz.command| && forall k :: 0 <= k < |tz.tokens| ==> !tz.tokens[k].Overlaps(index)
    ensures r.Success? ==>
              exists k :: 0 <= k < |tz.tokens| && tz.tokens[k] == r.value && r.value.Overlaps(index)
                          && (forall j :: 0 <= j < k ==> !tz.tokens[j].Overlaps(index))
  {
    if index < 0 || index > |tz.command| then Failure(OutOfBounds)
    else match FirstOverlap(tz.tokens, index, 0)
      case Some(k) => Success(tz.tokens[k])
      case None => Failure(NoToken)
  }

  /** Because tokens are ordered with a gap between them, no index is
      overlapped by two different tokens, even with inclusive ends. */
  lemma OverlapIsUnique(toks: seq<Token>, index: int)
    requires Ordered(toks)
    ensures forall a, b ::
              (0 <= a < |toks| && 0 <= b < |toks| && toks[a].Overlaps(index) && toks[b].Overlaps(index)) ==> a == b
  {
  }

  /** A cursor standing right after a token resolves to that token. */
  lemma TokenAtItsEnd(tz: CommandTokenizer, k: nat)
    requires tz.Valid()
    requires k < |tz.tokens|
    ensures GetTokenAtCharPos(tz, tz.tokens[k].end) == Success(tz.tokens[k])
  {
    var toks := tz.tokens;
    var r := GetTokenAtCharPos(tz, toks[k].end);
    assert IsMaximalRun(tz.command, toks[k]);
    assert toks[k].Overlaps(toks[k].end);
    var j :| 0 <= j < |toks| && toks[j] == r.value && r.value.Overlaps(toks[k].end);
    OverlapIsUnique(toks, toks[k].end);
  }

  /** A command has no tokens exactly when it is empty or all separators. */
  lemma BlankIffNoTokens(cmd: string)
    ensures Tokenize(cmd) == [] <==> forall p :: 0 <= p < |cmd| ==> IsSeparator(cmd[p])
  {
    var toks := Tokenize(cmd);
    if toks == [] {
      forall p | 0 <= p < |cmd|
        ensures IsSeparator(cmd[p])
      {
        assert !Covered(toks, p);
      }
    } else {
      assert IsMaximalRun(cmd, toks[0]);
      assert !IsSeparator(cmd[toks[0].start]);
    }
  }

  /** The worked example: "  foo bar  baz" splits into foo[2,5], bar[6,9] and
      baz[11,14], and the token at index 9 is "bar". */
  lemma ExampleTokens()
    ensures Tokenize("  foo bar  baz") ==
      [Token("foo", 0, 2, 5), Token("bar", 0, 6, 9), Token("baz", 0, 11, 14)]
  {
    ExampleFirstWord();
    ExampleSecondWord();
    ExampleThirdWord();
  }

  /** In the worked example the cursor at index 9, just after "bar", is on "bar". */
  lemma ExampleTokenAtNine()
    ensures GetTokenAtCharPos(SetCommand(CommandTokenizer("", []), "  foo bar  baz"), 9)
      == Success(Token("bar", 0, 6, 9))
  {
    ExampleTokens();
    var toks := [Token("foo", 0, 2, 5), Token("bar", 0, 6, 9), Token("baz", 0, 11, 14)];
    assert FirstOverlap(toks, 9, 1) == Some(1);
    assert FirstOverlap(toks, 9, 0) == Some(1);
  }

  /** Steps 0 to 6 of the scan of the worked example. */
  lemma ExampleFirstWord()
    ensures TokenizeLoop("  foo bar  baz", 0, Token("", 0, 0, 0), [])
         == TokenizeLoop("  foo bar  baz", 6, Token("", 0, 6, 6), [Token("foo", 0, 2, 5)])
  {
    var cmd := "  foo bar  baz";
    var foo := Token("foo", 0, 2, 5);
    var bar := Token("bar", 0, 6, 9);
    assert cmd[0] == ' ';
    assert TokenizeLoop(cmd, 0, Token("", 0, 0, 0), [])
        == TokenizeLoop(cmd, 1, Token("", 0, 1, 1), []);
    assert cmd[1] == ' ';
    assert TokenizeLoop(cmd, 1, Token("", 0, 1, 1), [])
        == TokenizeLoop(cmd, 2, Token("", 0, 2, 2), []);
    assert cmd[2] == 'f' && "" + ['f'] == "f";
    assert TokenizeLoop(cmd, 2, Token("", 0, 2, 2), [])
        == TokenizeLoop(cmd, 3, Token("f", 0, 2, 2), []);
    assert cmd[3] == 'o' && "f" + ['o'] == "fo";
    assert TokenizeLoop(cmd, 3, Token("f", 0, 2, 2), [])
        == TokenizeLoop(cmd, 4, Token("fo", 0, 2, 2), []);
    assert cmd[4] == 'o' && "fo" + ['o'] == "foo";
    assert TokenizeLoop(cmd, 4, Token("fo", 0, 2, 2), [])
        == TokenizeLoop(cmd, 5, Token("foo", 0, 2, 2), []);
    assert cmd[5] == ' ' && IsSeparator(cmd[5]);
    assert Flush(Token("foo", 0, 2, 2), [], 5) == [foo];
    assert TokenizeLoop(cmd, 5, Token("foo", 0, 2, 2), [])
        == TokenizeLoop(cmd, 6, Token("", 0, 6, 6), [foo]);
  }

  /** Steps 6 to 10 of the scan of the worked example. */
  lemma ExampleSecondWord()
    ensures TokenizeLoop("  foo bar  baz", 6, Token("", 0, 6, 6), [Token("foo", 0, 2, 5)])
         == TokenizeLoop("  foo bar  baz", 10, Token("", 0, 10, 10), [Token("foo", 0, 2, 5), Token("bar", 0, 6, 9)])
  {
    var cmd := "  foo bar  baz";
    var foo := Token("foo", 0, 2, 5);
    var bar := Token("bar", 0, 6, 9);
    assert cmd[6] == 'b' && "" + ['b'] == "b";
    assert TokenizeLoop(cmd, 6, Token("", 0, 6, 6), [foo])
        == TokenizeLoop(cmd, 7, Token("b", 0, 6, 6), [foo]);
    assert cmd[7] == 'a' && "b" + ['a'] == "ba";
    assert TokenizeLoop(cmd, 7, Token("b", 0, 6, 6), [foo])
        == TokenizeLoop(cmd, 8, Token("ba", 0, 6, 6), [foo]);
    assert cmd[8] == 'r' && "ba" + ['r'] == "bar";
    assert TokenizeLoop(cmd, 8, Token("ba", 0, 6, 6), [foo])
        == TokenizeLoop(cmd, 9, Token("bar", 0, 6, 6), [foo]);
    assert cmd[9] == ' ' && IsSeparator(cmd[9]);
    assert Flush(Token("bar", 0, 6, 6), [foo], 9) == [foo, bar];
    assert TokenizeLoop(cmd, 9, Token("bar", 0, 6, 6), [foo])
        == TokenizeLoop(cmd, 10, Token("", 0, 10, 10), [foo, bar]);
  }

  /** Steps 10 to 14 of the scan of the worked example. */
  lemma ExampleThirdWord()
    ensures TokenizeLoop("  foo bar  baz", 10, Token("", 0, 10, 10), [Token("foo", 0, 2, 5), Token("bar", 0, 6, 9)])
         == TokenizeLoop("  foo bar  baz", 14, Token("baz", 0, 11, 11), [Token("foo", 0, 2, 5), Token("bar", 0, 6, 9)])
  {
    var cmd := "  foo bar  baz";
    var foo := Token("foo", 0, 2, 5);
    var bar := Token("bar", 0, 6, 9);
    assert cmd[10] == ' ' && IsSeparator(cmd[10]);
    assert Flush(Token("", 0, 10, 10), [foo, bar], 10) == [foo, bar];
    assert TokenizeLoop(cmd, 10, Token("", 0, 10, 10), [foo, bar])
        == TokenizeLoop(cmd, 11, Token("", 0, 11, 11), [foo, bar]);
    assert cmd[11] == 'b' && "" + ['b'] == "b";
    assert TokenizeLoop(cmd, 11, Token("", 0, 11, 11), [foo, bar])
        == TokenizeLoop(cmd, 12, Token("b", 0, 11, 11), [foo, bar]);
    assert cmd[12] == 'a' && "b" + ['a'] == "ba";
    assert TokenizeLoop(cmd, 12, Token("b", 0, 11, 11), [foo, bar])
        == TokenizeLoop(cmd, 13, Token("ba", 0, 11, 11), [foo, bar]);
    assert cmd[13] == 'z' && "ba" + ['z'] == "baz";
    assert TokenizeLoop(cmd, 13, Token("ba", 0, 11, 11), [foo, bar])
        == TokenizeLoop(cmd, 14, Token("baz", 0, 11, 11), [foo, bar]);
  }

}
